=== FILE: README.md ===
# Offer reconciliation, modelled in Dafny

The system is a consultancy dashboard that tracks students' university
applications. An extractor turns an offer letter into a flat `ParsedOfferData`
record. `processParsedOffer` then merges that record into three stored
collections: students, applications and follow-up tasks. It does four things:

- It rejects a record that lacks the student name or the university, and then
  changes nothing.
- It finds the student by case-insensitive name, or creates one.
- It finds the application by (student, case-insensitive university), and
  either updates it in place or appends a new one.
- It appends follow-up tasks by two rules:
  - Rule A adds one task per condition of a conditional offer.
  - Rule B adds one deposit task.
  Each rule has a duplicate guard. Existing tasks are never modified.

Beside it sit three small operations:

- `updateTaskStatus` sets the status of the first task with a given identifier.
- The two read views filter the applications of one student and the tasks of
  one application.

The model is a set of pure functions over an explicit store:

| file | module | contents |
|---|---|---|
| `nullable.dfy` | `Nullable` | optional values and JavaScript truthiness (`null` and `""` are falsy) |
| `text.dfy` | `Text` | ASCII case folding (`Lower`) and substring search (`Contains`), tied to an index-based definition |
| `seqs.dfy` | `Seqs` | `findIndex` and `filter` on sequences |
| `records.dfy` | `Records` | the entities: `Student`, `Application`, `Task`, `ParsedOffer` and the three enums |
| `classify.dfy` | `Classify` | `mapOfferStatus` and `mapOfferType` |
| `taskrules.dfy` | `TaskRules` | Rules A and B, and `updateTaskStatus` |
| `queries.dfy` | `Queries` | `getApplicationsForStudent` and `getTasksForApplication` |
| `reconcile.dfy` | `Reconciliation` | `processParsedOffer`: student resolution, application resolution and merge, task generation |
| `reconcile_props.dfy` | `ReconcileProperties` | properties that relate several calls or hold of every stored state |
| `scenarios.dfy` | `Scenarios` | the raw-tag gate of Rule A, and two worked uploads of the same letter twice |

The environment becomes parameters:

- The browser store becomes a `Store` value passed in and returned.
- The random identifier generator becomes a stream `ids: nat -> string`. It is
  read from position 0 in call order: a new student, then a new application,
  then the new tasks. `Reconciled.idsUsed` says how many identifiers were taken.
- The two clock readings become `today`, the ISO date used when the letter has
  none, and `now`, the millisecond timestamp.

## Model

| member | source | states |
|---|---|---|
| `Classify.OfferStatusOfSpec` | services/storageService.ts:71-76 | the status is None exactly for a null or empty tag; Reject exactly when the tag mentions "reject" in any case; Waitlist exactly when it mentions "waitlist" but not "reject"; Offer for every other tag, so the classifier is total |
| `Classify.OfferTypeOfSpec` | services/storageService.ts:78-83 | the type is Unconditional exactly when the tag mentions "unconditional" in any case; Conditional exactly when it mentions "conditional" but not "unconditional"; Unknown exactly for a null or empty tag or one that does not mention "conditional" |
| `Classify.UnconditionalMentionsConditional` | services/storageService.ts:80-81 | every text containing "unconditional" contains "conditional", which is why the longer word must be tested first |
| `Classify.ClassifiersIgnoreCase` | services/storageService.ts:73-81 | two tags that agree up to case get the same status and the same type |
| `Classify.ConditionalLabel` | types.ts:59 | the tag "Conditional", in any case, is an Offer of type Conditional |
| `Classify.UnconditionalLabel` | types.ts:59 | the tag "Unconditional", in any case, is an Offer of type Unconditional |
| `Classify.RejectLabel` | types.ts:59 | the tag "Reject", in any case, is a Reject of type Unknown |
| `Classify.WaitlistLabel` | types.ts:59 | the tag "Waitlist", in any case, is a Waitlist of type Unknown |
| `Classify.ConditionalTagExample` | services/storageService.ts:71-83 | the extractor's tag "Conditional" classifies as an Offer of type Conditional |
| `Classify.DecoratedUnconditionalExample` | services/storageService.ts:80 | "Unconditional Offer" is still recognised as unconditional |
| `Classify.DecoratedRejectExample` | services/storageService.ts:73 | "Reject - insufficient grades" is still recognised as a rejection |
| `Text.ContainsIffOccurs` | services/storageService.ts:124 | the recursive `includes` holds exactly when the substring occurs at some index |
| `Seqs.FirstIndex` | services/storageService.ts:64-67 | `findIndex` returns the first position whose element satisfies the predicate, and none exactly when no element does |
| `Seqs.FilterDistributes` | services/storageService.ts:29 | filtering a concatenation concatenates the filtered parts in order |
| `Queries.ApplicationsForStudent` | services/storageService.ts:28-30 | the view holds only applications of the student, and every stored application of the student is in it |
| `Queries.TasksForApplication` | services/storageService.ts:32-34 | the view holds only tasks of the application, and every stored task of the application is in it |
| `Queries.ApplicationsForStudentAppend` | services/storageService.ts:28-30 | the application view keeps stored order: the view of `a + b` is the view of `a` followed by the view of `b` |
| `Queries.TasksForApplicationAppend` | services/storageService.ts:32-34 | the task view keeps stored order: the view of `a + b` is the view of `a` followed by the view of `b` |
| `Queries.TasksForApplicationAfterAppend` | services/storageService.ts:32-34 | tasks appended for one application extend that application's view by exactly themselves, in order |
| `Queries.OtherTasksAfterAppend` | services/storageService.ts:32-34 | tasks appended for one application leave every other application's view unchanged |
| `Reconciliation.ResolveStudent` | services/storageService.ts:47-59 | a student is created exactly when no stored name matches up to case; it is appended with the parsed name, "未分配" as consultant and the auto-creation note; otherwise the students are unchanged and the first match's identifier is reported |
| `Reconciliation.UpdatedApplication` | services/storageService.ts:85-102 | an update keeps the identifier, student and university text, overwrites every merged field with the incoming value (absent values included), and replaces the program only when the letter names one |
| `Reconciliation.NewApplication` | services/storageService.ts:104-117 | a new application gets the given identity, the letter's program or "通用申请", and the merged fields |
| `Reconciliation.ResolveApplication` | services/storageService.ts:64-67 | an application is appended exactly when no stored one matches (student, university up to case); otherwise the first match is updated in place and everything else is kept |
| `Reconciliation.Reconcile` | services/storageService.ts:37-162 | success exactly when both the student name and the university are non-empty; on failure the store is unchanged, the incomplete message is returned and no identifier is taken; the message says whether a student was created; students and tasks only grow at the end, applications grow by at most one, and every new task is a pending task of the resolved application |
| `TaskRules.AddConditionTasks` | services/storageService.ts:121-135 | Rule A keeps every existing task and appends only pending tasks of the application with no deadline, taking consecutive identifiers; each new task reads "满足录取条件: " followed by a listed condition that no task of the application mentioned before the call, and no two new tasks share a description, so a condition gets at most one task |
| `TaskRules.ConditionsCovered` | services/storageService.ts:122-134 | after Rule A every listed condition is mentioned by some task of the application |
| `TaskRules.ConditionsAlreadyCovered` | services/storageService.ts:124-125 | Rule A adds nothing and takes no identifier when every condition is already mentioned (the duplicate guard) |
| `TaskRules.MentionedConditionSkipped` | services/storageService.ts:124-125 | a condition some task of the application already mentions gets no new task, whatever the other conditions in the list |
| `TaskRules.UnmentionedConditionGetsTask` | services/storageService.ts:122-133 | a condition that no task of the application mentions, and that no earlier condition's task text contains, gets a task "满足录取条件: " followed by it |
| `TaskRules.ConditionTasksInListOrder` | services/storageService.ts:122-133 | Rule A appends its tasks in the order of the condition list: of any two new tasks, the earlier belongs to an earlier condition |
| `TaskRules.AddConditionTasksSnoc` | services/storageService.ts:122-134 | Rule A is a left fold over the list: the result for `cs + [c]` is the result for `cs`, followed by a task for `c` exactly when no task of the application, including those just added for earlier conditions, mentions `c`; so `["IELTS 7.0", "IELTS"]` yields one task |
| `TaskRules.AddDepositTask` | services/storageService.ts:137-150 | Rule B keeps every existing task and appends a task exactly when a deadline was parsed and no task of the application carries the deposit marker; that task is pending, belongs to the application, carries the parsed deadline and reads "缴纳押金 (" followed by the amount, or "金额待定", and ")" |
| `TaskRules.DepositRule` | services/storageService.ts:138-141 | after Rule B, whenever a deadline was parsed and whatever the offer type, some task of the application carries the deposit marker, which may be a condition task rather than a deposit task (see `Scenarios.MarkerInConditionSuppressesDeposit`); an existing marked task blocks any change, so a new deadline is not carried into it |
| `TaskRules.GenerateTasks` | services/storageService.ts:119-150 | the two rules together only append pending tasks of the application, taking at most one identifier per condition plus one; unless the raw tag is exactly "Conditional" with a condition list, Rule B alone decides the result |
| `TaskRules.GeneratedTasksCover` | services/storageService.ts:119-150 | after the two rules every condition of a firing Rule A and the deposit marker of a firing Rule B are mentioned |
| `TaskRules.GenerateTasksIdempotent` | services/storageService.ts:119-150 | running both rules again on their own output adds nothing and takes no identifier |
| `TaskRules.UpdateTaskStatus` | services/storageService.ts:164-171 | the length is kept; only the first task with the identifier gets the new status; an unknown identifier leaves the list unchanged |
| `TaskRules.UpdateTaskStatusLastWins` | services/storageService.ts:164-171 | setting a status twice is the same as setting the second one |
| `ReconcileProperties.MergeIdempotent` | services/storageService.ts:97-102 | merging the same letter twice equals merging it once |
| `ReconcileProperties.MergeFixesNew` | services/storageService.ts:97-117 | merging a letter into the application just created from it changes nothing |
| `ReconcileProperties.ReconcileResolvesStudent` | services/storageService.ts:47-59 | within the whole call: with no case-insensitive name match, exactly one student is appended under the first identifier and the new-student message is returned; otherwise the students are unchanged, the update message is returned and the first match's identifier is reported |
| `ReconcileProperties.ReconcileResolvesApplication` | services/storageService.ts:61-117 | within the whole call: with no (student, university) match, exactly one application is appended under the identifier after the student's; otherwise the first match is merged in place |
| `ReconcileProperties.ReconcileGeneratesTasks` | services/storageService.ts:119-150 | after a successful call the task list is exactly what the two rules make of the stored tasks for the resolved application, starting after the identifiers the created records took; every condition of a firing Rule A is mentioned; the deposit marker is mentioned whenever a deadline was parsed; unless the raw tag is exactly "Conditional" with a condition list, only Rule B can add a task |
| `ReconcileProperties.StudentReuse` | services/storageService.ts:47 | a second name that differs only in case finds the student the first created or found |
| `ReconcileProperties.ApplicationReuse` | services/storageService.ts:64-67 | a second letter for the same student and university, up to case, finds the same application and appends none; with the same letter and clock readings the application list is unchanged |
| `ReconcileProperties.ReconcileIdempotent` | services/storageService.ts:37-162 | uploading the same letter again creates no student, application or task, takes no identifier, reports the same student with the update message, and with the same clock readings leaves the store exactly as it was |
| `ReconcileProperties.ReuploadIgnoresCase` | services/storageService.ts:47-67 | a second letter naming the student in another case reuses the student, and for the same university in any case also reuses the application |
| `ReconcileProperties.ApplicationKeysStayUnique` | services/storageService.ts:64-117 | resolving an application keeps the (student, university up to case) key unique |
| `ReconcileProperties.ReconcileKeepsKeysUnique` | services/storageService.ts:37-162 | a call keeps student names unique up to case and application keys unique |
| `ReconcileProperties.ApplicationIdsStayDistinct` | services/storageService.ts:97-117 | a merge keeps the application identifier and a new application takes a fresh one, so application identifiers stay distinct |
| `ReconcileProperties.TaskIdsStayDistinct` | services/storageService.ts:126-148 | tasks appended under identifiers of a non-repeating stream that are not already stored keep task identifiers distinct |
| `ReconcileProperties.ReconcileKeepsIdsDistinct` | services/storageService.ts:37-162 | with a non-repeating stream of unused identifiers, a call keeps identifiers distinct in all three collections |
| `ReconcileProperties.ResolvedStudentStored` | services/storageService.ts:47-59 | the resolved student is stored under the parsed name |
| `ReconcileProperties.ResolvedApplicationStored` | services/storageService.ts:64-117 | the resolved application is stored under the (student, university) key |
| `ReconcileProperties.ReconcileLinksRecords` | services/storageService.ts:157-161 | after a successful call the reported student is stored under the parsed name, and the application is stored under its key and appears in that student's application view |
| `ReconcileProperties.ReconcileTaskViews` | services/storageService.ts:119-150 | the new tasks extend exactly the resolved application's task view, in order, and no other application's view changes |
| `Scenarios.TwoRulesFromNoTasks` | services/storageService.ts:121-150 | with one condition whose task text does not contain "缴纳押金" and a deposit deadline, an empty task list gets the condition task and then the deposit task |
| `Scenarios.LowerCaseTagSkipsRuleA` | services/storageService.ts:121 | the tag "conditional" is typed Conditional, yet Rule A does not fire for it, because the rule compares the raw tag with "Conditional"; without a deadline no task is added |
| `Scenarios.MarkerInConditionSuppressesDeposit` | services/storageService.ts:121-148 | when Rule A fires on one condition whose task text contains "缴纳押金", an empty task list gets only the condition task, and the parsed deadline is carried by no task |
| `Scenarios.DepositConditionSuppressesDeposit` | services/storageService.ts:121-148 | the condition "缴纳押金" itself is such a condition |
| `Scenarios.ConditionalOfferUploadedTwice` | services/storageService.ts:37-162 | a conditional offer with one condition whose task text does not contain "缴纳押金" and a deposit deadline, uploaded twice into an empty store, leaves one student, one application and exactly those two tasks |
| `Scenarios.IeltsOfferUploadedTwice` | services/storageService.ts:37-162 | the letter for "Alice Tan" at "MIT" with condition "IELTS 7.0" and deadline "2025-06-01", uploaded twice, leaves one student, one application and two tasks |

Where the code and its comments or its documented intent differ, the model
follows the code:

- An empty offer tag classifies as None / Unknown, because the code tests `!type`.
  A reading where every non-null tag counts as an offer would give Offer.
- The comment at services/storageService.ts:62 says the application key also
  matches the program loosely. The code matches only on student and
  university, so the model does too.
- The comment at services/storageService.ts:100 says the program is updated
  only if it was generic. The code replaces it whenever the letter names a
  program, so the model does too.
- Rule A fires on the exact tag "Conditional" with a non-null condition list,
  including an empty one, which adds nothing.
- Rule B looks for the deposit marker "缴纳押金" in every task of the
  application, condition tasks included. A condition whose text contains the
  marker therefore suppresses the deposit task, and the parsed deadline is
  recorded nowhere.
- The spread at line 114 overwrites the timestamp of line 113, so a new
  application carries the single `now` reading.

`Reconciled` carries the identifier of the application the record was merged
into. `processParsedOffer` keeps it in a local variable. Surfacing it lets the task
properties name it; it is `""` on failure.

## Left out

- Persistence: `localStorage` and the JSON load and save (services/storageService.ts:13-20, 24-26, 153-155, 169) are the explicit `Store` value.
- The random identifier generator (line 11) is the `ids` stream. Collision freedom is an assumption (`FreshIds`), not a property of `Math.random`.
- The clocks (`Date.now`, `new Date()`) are the parameters `now` and `today`.
- Text.Lower: folds ASCII letters only. JavaScript's `toLowerCase` folds every Unicode letter; non-ASCII names are compared as written.
- The extractor that produces `ParsedOfferData` calls a remote language model. It is not part of this model; any record it could produce is an input.
- The React components, including the dashboard's floating-point deposit total, are presentation. They are not part of this model.
- `startTerm`, `contact` and `consultant_name` beyond its initial value are carried but never read by the core.
- Reconciliation.Reconcile: its own contract states only the growth and shape of each collection. The exact resulting students, applications and tasks are stated by `ReconcileProperties.ReconcileResolvesStudent`, `ReconcileProperties.ReconcileResolvesApplication` and `ReconcileProperties.ReconcileGeneratesTasks`.

=== FILE: classify.dfy ===
/** The two total classifiers that turn the extractor's free-form offer tag
    into the closed `OfferStatus` and `OfferType` enums. */
module Classify {
  import opened Nullable
  import opened Text
  import opened Records

  /** `mapOfferStatus`: a falsy tag has no status; otherwise "reject" wins
      over "waitlist", and anything else counts as an offer. */
  function OfferStatusOf(tag: Option<string>): OfferStatus {
    if !Truthy(tag) then NoStatus
    else if Contains(Lower(tag.value), "reject") then Reject
    else if Contains(Lower(tag.value), "waitlist") then Waitlist
    else Offer
  }

  /** `mapOfferType`: "unconditional" is tested first, since it contains "conditional". */
  function OfferTypeOf(tag: Option<string>): OfferType {
    if !Truthy(tag) then Unknown
    else if Contains(Lower(tag.value), "unconditional") then Unconditional
    else if Contains(Lower(tag.value), "conditional") then Conditional
    else Unknown
  }

  /** `word` appears in `raw`, ignoring case. */
  ghost predicate MentionsIgnoringCase(raw: string, word: string) {
    exists i :: OccursAt(Lower(raw), word, i)
  }

  /** Each status is produced by exactly the labels described here. */
  lemma OfferStatusOfSpec(tag: Option<string>)
    ensures OfferStatusOf(tag) == NoStatus <==> !Truthy(tag)
    ensures OfferStatusOf(tag) == Reject <==> Truthy(tag) && MentionsIgnoringCase(tag.value, "reject")
    ensures OfferStatusOf(tag) == Waitlist <==>
      Truthy(tag) && !MentionsIgnoringCase(tag.value, "reject") && MentionsIgnoringCase(tag.value, "waitlist")
    ensures OfferStatusOf(tag) == Offer <==>
      Truthy(tag) && !MentionsIgnoringCase(tag.value, "reject") && !MentionsIgnoringCase(tag.value, "waitlist")
  {
    if Truthy(tag) {
      ContainsIffOccurs(Lower(tag.value), "reject");
      ContainsIffOccurs(Lower(tag.value), "waitlist");
    }
  }

  /** Whatever mentions "unconditional" also mentions "conditional", which is
      why the type classifier tests the longer word first. */
  lemma UnconditionalMentionsConditional(l: string)
    requires Contains(l, "unconditional")
    ensures Contains(l, "conditional")
  {
    ContainsIffOccurs(l, "unconditional");
    var i :| OccursAt(l, "unconditional", i);
    assert l[i + 2..i + 13] == l[i..i + 13][2..];
    assert OccursAt(l, "conditional", i + 2);
    ContainsIffOccurs(l, "conditional");
  }

  /** Each offer type is produced by exactly the labels described here. */
  lemma OfferTypeOfSpec(tag: Option<string>)
    ensures OfferTypeOf(tag) == Unconditional <==> Truthy(tag) && MentionsIgnoringCase(tag.value, "unconditional")
    ensures OfferTypeOf(tag) == Conditional <==>
      Truthy(tag) && !MentionsIgnoringCase(tag.value, "unconditional") && MentionsIgnoringCase(tag.value, "conditional")
    ensures OfferTypeOf(tag) == Unknown <==>
      !Truthy(tag) || !MentionsIgnoringCase(tag.value, "conditional")
  {
    if Truthy(tag) {
      var l := Lower(tag.value);
      ContainsIffOccurs(l, "unconditional");
      ContainsIffOccurs(l, "conditional");
      if Contains(l, "unconditional") {
        UnconditionalMentionsConditional(l);
      }
    }
  }

  /** Both classifiers ignore the case of the tag. */
  lemma ClassifiersIgnoreCase(a: string, b: string)
    requires Lower(a) == Lower(b)
    ensures OfferStatusOf(Some(a)) == OfferStatusOf(Some(b))
    ensures OfferTypeOf(Some(a)) == OfferTypeOf(Some(b))
  {
    assert |a| == |Lower(a)| == |b|;
  }

  /** The folded offer labels "conditional" and "unconditional" mention
      neither "reject" nor "waitlist": none of their letters is an "r" or a "w". */
  lemma OfferLabelClean(l: string, w: string)
    requires l == "conditional" || l == "unconditional"
    requires w == "reject" || w == "waitlist"
    ensures !Contains(l, w)
  {
    NotContainsWithoutFirstChar(l, w);
  }

  /** "conditional", in any case, is an offer that carries conditions. */
  lemma ConditionalLabel(tag: string)
    requires Lower(tag) == "conditional"
    ensures OfferStatusOf(Some(tag)) == Offer
    ensures OfferTypeOf(Some(tag)) == Conditional
  {
    OfferLabelClean("conditional", "reject");
    OfferLabelClean("conditional", "waitlist");
    NotContainsLonger("conditional", "unconditional");
    ContainsPrefix("conditional", "");
  }

  /** "unconditional", in any case, is an offer, and not a conditional one. */
  lemma UnconditionalLabel(tag: string)
    requires Lower(tag) == "unconditional"
    ensures OfferStatusOf(Some(tag)) == Offer
    ensures OfferTypeOf(Some(tag)) == Unconditional
  {
    OfferLabelClean("unconditional", "reject");
    OfferLabelClean("unconditional", "waitlist");
    ContainsPrefix("unconditional", "");
  }

  /** "reject", in any case, is a rejection without an offer type. */
  lemma RejectLabel(tag: string)
    requires Lower(tag) == "reject"
    ensures OfferStatusOf(Some(tag)) == Reject
    ensures OfferTypeOf(Some(tag)) == Unknown
  {
    ContainsPrefix("reject", "");
    NotContainsLonger("reject", "unconditional");
    NotContainsLonger("reject", "conditional");
  }

  /** "waitlist", in any case, is a waitlisting without an offer type. */
  lemma WaitlistLabel(tag: string)
    requires Lower(tag) == "waitlist"
    ensures OfferStatusOf(Some(tag)) == Waitlist
    ensures OfferTypeOf(Some(tag)) == Unknown
  {
    NotContainsWithoutFirstChar("waitlist", "reject");
    ContainsPrefix("waitlist", "");
    NotContainsLonger("waitlist", "unconditional");
    NotContainsLonger("waitlist", "conditional");
  }

  /** A label that starts with "unconditional", in any case, is an unconditional offer type. */
  lemma UnconditionalPrefix(tag: string)
    requires "unconditional" <= Lower(tag)
    ensures OfferTypeOf(Some(tag)) == Unconditional
  {
  }

  /** A label that starts with "reject", in any case, is a rejection. */
  lemma RejectPrefix(tag: string)
    requires "reject" <= Lower(tag)
    ensures OfferStatusOf(Some(tag)) == Reject
  {
  }

  /** The tag the extractor uses for a conditional offer classifies as an
      offer at the status level and as conditional at the type level. */
  lemma ConditionalTagExample()
    ensures OfferStatusOf(Some("Conditional")) == Offer
    ensures OfferTypeOf(Some("Conditional")) == Conditional
  {
    assert Lower("Conditional") == "conditional";
    ConditionalLabel("Conditional");
  }

  /** Text after the keyword does not stop an unconditional offer being recognised. */
  lemma DecoratedUnconditionalExample()
    ensures OfferTypeOf(Some("Unconditional Offer")) == Unconditional
  {
    assert Lower("Unconditional Offer")[..13] == "unconditional";
    UnconditionalPrefix("Unconditional Offer");
  }

  /** Text after the keyword does not stop a rejection being recognised. */
  lemma DecoratedRejectExample()
    ensures OfferStatusOf(Some("Reject - insufficient grades")) == Reject
  {
    assert Lower("Reject - insufficient grades")[..6] == "reject";
    RejectPrefix("Reject - insufficient grades");
  }
}

=== FILE: nullable.dfy ===
/** Values the offer service leaves as `null` or `undefined`, and the
    JavaScript truthiness tests (`if (x)`, `x || fallback`) it applies to them. */
module Nullable {

  /** A `T | null` (or an optional property that may be `undefined`). */
  datatype Option<+T> = None | Some(value: T)

  /** Truthiness of a `string | null`: `null` and the empty string are falsy. */
  predicate Truthy(o: Option<string>) {
    o.Some? && o.value != ""
  }

  /** `o || fallback` on a `string | null`. */
  function OrElse(o: Option<string>, fallback: string): string {
    if Truthy(o) then o.value else fallback
  }

  /** `o || undefined`: an empty string is stored as an absent property. */
  function OrAbsent(o: Option<string>): Option<string> {
    if Truthy(o) then o else None
  }

  /** `list || []` on a `T[] | null`; every array, even an empty one, is truthy. */
  function ListOrEmpty<T>(o: Option<seq<T>>): seq<T> {
    if o.Some? then o.value else []
  }
}

=== FILE: queries.dfy ===
/** The read views the student list and the detail screen use: the
    applications of one student and the tasks of one application, each a
    filter over the whole stored collection in stored order. */
module Queries {
  import opened Seqs
  import opened Records

  /** `getApplicationsForStudent`. */
  function ApplicationsForStudent(apps: seq<Application>, studentId: string): (r: seq<Application>)
    ensures |r| <= |apps|
    ensures forall i :: 0 <= i < |r| ==> r[i].student_id == studentId && r[i] in apps
    ensures forall i :: 0 <= i < |apps| && apps[i].student_id == studentId ==> apps[i] in r
  {
    Filter(apps, (a: Application) => a.student_id == studentId)
  }

  /** `getTasksForApplication`. */
  function TasksForApplication(tasks: seq<Task>, appId: string): (r: seq<Task>)
    ensures |r| <= |tasks|
    ensures forall i :: 0 <= i < |r| ==> r[i].application_id == appId && r[i] in tasks
    ensures forall i :: 0 <= i < |tasks| && tasks[i].application_id == appId ==> tasks[i] in r
  {
    Filter(tasks, (t: Task) => t.application_id == appId)
  }

  /** The view of a concatenation is the concatenation of the views: the
      view keeps the stored order. */
  lemma ApplicationsForStudentAppend(a: seq<Application>, b: seq<Application>, studentId: string)
    ensures ApplicationsForStudent(a + b, studentId) == ApplicationsForStudent(a, studentId) + ApplicationsForStudent(b, studentId)
  {
    FilterDistributes(a, b, (x: Application) => x.student_id == studentId);
  }

  /** The view of a concatenation is the concatenation of the views: the
      view keeps the stored order. */
  lemma TasksForApplicationAppend(a: seq<Task>, b: seq<Task>, appId: string)
    ensures TasksForApplication(a + b, appId) == TasksForApplication(a, appId) + TasksForApplication(b, appId)
  {
    FilterDistributes(a, b, (x: Task) => x.application_id == appId);
  }

  /** Tasks appended for `appId` extend its view by exactly themselves. */
  lemma TasksForApplicationAfterAppend(tasks: seq<Task>, added: seq<Task>, appId: string)
    requires forall k :: 0 <= k < |added| ==> added[k].application_id == appId
    ensures TasksForApplication(tasks + added, appId) == TasksForApplication(tasks, appId) + added
  {
    TasksForApplicationAppend(tasks, added, appId);
    FilterKeepsAll(added, (x: Task) => x.application_id == appId);
  }

  /** Tasks appended for `appId` leave the view of every other application as it was. */
  lemma OtherTasksAfterAppend(tasks: seq<Task>, added: seq<Task>, appId: string, other: string)
    requires forall k :: 0 <= k < |added| ==> added[k].application_id == appId
    requires other != appId
    ensures TasksForApplication(tasks + added, other) == TasksForApplication(tasks, other)
  {
    TasksForApplicationAppend(tasks, added, other);
    FilterKeepsNone(added, (x: Task) => x.application_id == other);
  }
}

=== FILE: reconcile.dfy ===
/** `processParsedOffer`: merge one parsed offer record into the stored
    students, applications and tasks.

    The browser store becomes an explicit `Store` in and out; the random
    identifier generator becomes a stream `ids` read from position 0 in call
    order (new student, new application, new tasks); the two clock readings
    become `today` (the ISO date used when the letter has none) and `now`
    (the millisecond timestamp). */
module Reconciliation {
  import opened Nullable
  import opened Text
  import opened Seqs
  import opened Records
  import opened Classify
  import opened TaskRules

  /** Failure message: student name or university missing. */
  const IncompleteMessage: string := "信息不完整（未找到学生姓名或学校名称）"
  /** Success message when a student was created. */
  const NewStudentMessage: string := "新学生档案已创建，Offer 信息已录入。"
  /** Success message when the student already existed. */
  const UpdatedMessage: string := "现有学生申请记录已更新。"
  /** Consultant of an automatically created student ("unassigned"). */
  const Unassigned: string := "未分配"
  /** Note on an automatically created student. */
  const AutoCreatedNote: string := "系统自动通过 PDF 解析创建"
  /** Program of a new application whose letter names none ("general application"). */
  const DefaultProgram: string := "通用申请"

  datatype Store = Store(students: seq<Student>, applications: seq<Application>, tasks: seq<Task>)

  /** What the upload screen is told. */
  datatype Outcome = Outcome(success: bool, message: string, studentId: string)

  /** The saved collections, the outcome, the application the record was
      merged into ("" on failure) and how many identifiers were taken. */
  datatype Reconciled = Reconciled(store: Store, outcome: Outcome, applicationId: string, idsUsed: nat)

  // ---- Student resolution ----

  /** The student dedup key: the name, ignoring case. */
  predicate NameMatches(s: Student, name: string) {
    Lower(s.name) == Lower(name)
  }

  function SameName(name: string): Student -> bool {
    s => NameMatches(s, name)
  }

  /** `k` is the first student whose name matches. */
  ghost predicate FirstNameMatch(students: seq<Student>, name: string, k: int) {
    0 <= k < |students| && NameMatches(students[k], name) &&
    forall j :: 0 <= j < k ==> !NameMatches(students[j], name)
  }

  function NewStudent(id: string, name: string): Student {
    Student(id, name, None, Some(Unassigned), Some(AutoCreatedNote))
  }

  datatype StudentChoice = StudentChoice(students: seq<Student>, studentId: string, created: bool)

  /** Reuse the first student with the same name up to case, or append one. */
  function ResolveStudent(students: seq<Student>, name: string, freshId: string): (r: StudentChoice)
    ensures r.created <==> forall j :: 0 <= j < |students| ==> !NameMatches(students[j], name)
    ensures r.created ==> r.students == students + [NewStudent(freshId, name)] && r.studentId == freshId
    ensures !r.created ==>
      && r.students == students
      && exists k :: FirstNameMatch(students, name, k) && r.studentId == students[k].student_id
  {
    match FirstIndex(students, SameName(name))
    case Some(k) =>
      assert FirstNameMatch(students, name, k);
      StudentChoice(students, students[k].student_id, false)
    case None => StudentChoice(students + [NewStudent(freshId, name)], freshId, true)
  }

  // ---- Application resolution and merge ----

  /** The application dedup key: the student and the university, ignoring
      case; the program plays no part. */
  predicate KeyMatches(a: Application, studentId: string, university: string) {
    a.student_id == studentId && Lower(a.university) == Lower(university)
  }

  function SameKey(studentId: string, university: string): Application -> bool {
    a => KeyMatches(a, studentId, university)
  }

  /** `k` is the first application whose key matches. */
  ghost predicate FirstKeyMatch(apps: seq<Application>, studentId: string, university: string, k: int) {
    0 <= k < |apps| && KeyMatches(apps[k], studentId, university) &&
    forall j :: 0 <= j < k ==> !KeyMatches(apps[j], studentId, university)
  }

  /** The fields every reconciliation writes into its application. */
  datatype Incoming = Incoming(
    offer_status: OfferStatus,
    offer_type: OfferType,
    offer_date: Option<string>,
    deposit_amount: Option<string>,
    deposit_deadline: Option<string>,
    tasks_to_do: seq<string>,
    raw_pdf_text: Option<string>,
    school_id_ref: Option<string>,
    last_updated_timestamp: int)

  /** `processParsedOffer`'s `newAppData`: the classified label, the letter's date or
      today, the deposit fields, the next steps, the excerpt, the school's
      reference and the clock reading. */
  function IncomingFields(p: ParsedOffer, today: string, now: int): Incoming {
    Incoming(
      OfferStatusOf(p.offerType),
      OfferTypeOf(p.offerType),
      Some(OrElse(p.offerDate, today)),
      OrAbsent(p.depositAmount),
      OrAbsent(p.depositDeadline),
      ListOrEmpty(p.nextSteps),
      Some(OrElse(p.keySentences, "")),
      OrAbsent(p.schoolId),
      now)
  }

  /** The part of a stored application that a reconciliation overwrites. */
  function Overwritten(a: Application): Incoming {
    Incoming(a.offer_status, a.offer_type, a.offer_date, a.deposit_amount, a.deposit_deadline,
             a.tasks_to_do, a.raw_pdf_text, a.school_id_ref, a.last_updated_timestamp)
  }

  function WithIncoming(a: Application, f: Incoming): Application {
    a.(offer_status := f.offer_status, offer_type := f.offer_type, offer_date := f.offer_date,
       deposit_amount := f.deposit_amount, deposit_deadline := f.deposit_deadline,
       tasks_to_do := f.tasks_to_do, raw_pdf_text := f.raw_pdf_text,
       school_id_ref := f.school_id_ref, last_updated_timestamp := f.last_updated_timestamp)
  }

  /** Update in place: the identity and the university text stay, every
      overwritten field takes the incoming value (absent values included),
      and the program changes only when the letter names one. */
  function UpdatedApplication(a: Application, p: ParsedOffer, today: string, now: int): (r: Application)
    ensures r.application_id == a.application_id && r.student_id == a.student_id && r.university == a.university
    ensures r.program == (if Truthy(p.program) then p.program.value else a.program)
    ensures Overwritten(r) == IncomingFields(p, today, now)
  {
    var merged := WithIncoming(a, IncomingFields(p, today, now));
    if Truthy(p.program) then merged.(program := p.program.value) else merged
  }

  /** A new application: the given identity, the letter's program or the
      placeholder, and the incoming fields over the defaults. */
  function NewApplication(id: string, studentId: string, university: string, p: ParsedOffer, today: string, now: int): (r: Application)
    ensures r.application_id == id && r.student_id == studentId && r.university == university
    ensures r.program == OrElse(p.program, DefaultProgram)
    ensures Overwritten(r) == IncomingFields(p, today, now)
  {
    var blank := Application(id, studentId, university, OrElse(p.program, DefaultProgram),
                             NoStatus, Unknown, None, None, None, [], None, now, None);
    WithIncoming(blank, IncomingFields(p, today, now))
  }

  datatype ApplicationChoice = ApplicationChoice(applications: seq<Application>, applicationId: string, created: bool)

  /** Update the first application with the same key in place, or append one. */
  function ResolveApplication(apps: seq<Application>, studentId: string, university: string, p: ParsedOffer,
                              freshId: string, today: string, now: int): (r: ApplicationChoice)
    ensures r.created <==> forall j :: 0 <= j < |apps| ==> !KeyMatches(apps[j], studentId, university)
    ensures r.created ==>
      r.applications == apps + [NewApplication(freshId, studentId, university, p, today, now)] && r.applicationId == freshId
    ensures !r.created ==> exists k ::
      && FirstKeyMatch(apps, studentId, university, k)
      && r.applications == apps[k := UpdatedApplication(apps[k], p, today, now)]
      && r.applicationId == apps[k].application_id
  {
    match FirstIndex(apps, SameKey(studentId, university))
    case Some(k) =>
      assert FirstKeyMatch(apps, studentId, university, k);
      ApplicationChoice(apps[k := UpdatedApplication(apps[k], p, today, now)], apps[k].application_id, false)
    case None =>
      ApplicationChoice(apps + [NewApplication(freshId, studentId, university, p, today, now)], freshId, true)
  }

  // ---- The entry point ----

  /** Both identifying fields are present and non-empty. */
  predicate Complete(p: ParsedOffer) {
    Truthy(p.studentName) && Truthy(p.university)
  }

  /** The intermediate results of a successful call: the student choice,
      the application choice, the stream position after each, and the tasks. */
  datatype Stages = Stages(student: StudentChoice, afterStudent: nat,
                           application: ApplicationChoice, afterApplication: nat, generated: Generated)

  /** The three steps of a successful call, in order, each taking the next
      identifier of the stream only when it creates a record. */
  function RunStages(store: Store, p: ParsedOffer, ids: nat -> string, today: string, now: int): Stages
    requires Complete(p)
  {
    var sc := ResolveStudent(store.students, p.studentName.value, ids(0));
    var afterStudent: nat := if sc.created then 1 else 0;
    var ac := ResolveApplication(store.applications, sc.studentId, p.university.value, p, ids(afterStudent), today, now);
    var afterApplication: nat := if ac.created then afterStudent + 1 else afterStudent;
    Stages(sc, afterStudent, ac, afterApplication, GenerateTasks(store.tasks, ac.applicationId, p, ids, afterApplication))
  }

  /** `processParsedOffer`. */
  function Reconcile(store: Store, p: ParsedOffer, ids: nat -> string, today: string, now: int): (r: Reconciled)
    ensures r.outcome.success <==> Complete(p)
    ensures !Complete(p) ==> r == Reconciled(store, Outcome(false, IncompleteMessage, ""), "", 0)
    ensures Complete(p) ==>
      r.outcome.message == (if |r.store.students| > |store.students| then NewStudentMessage else UpdatedMessage)
    ensures |store.students| <= |r.store.students| <= |store.students| + 1
    ensures r.store.students[..|store.students|] == store.students
    ensures |store.applications| <= |r.store.applications| <= |store.applications| + 1
    ensures |store.tasks| <= |r.store.tasks| && r.store.tasks[..|store.tasks|] == store.tasks
    ensures forall k :: |store.tasks| <= k < |r.store.tasks| ==>
      r.store.tasks[k].application_id == r.applicationId && r.store.tasks[k].status == Pending
  {
    if !Complete(p) then
      Reconciled(store, Outcome(false, IncompleteMessage, ""), "", 0)
    else
      var s := RunStages(store, p, ids, today, now);
      Reconciled(Store(s.student.students, s.application.applications, s.generated.tasks),
                 Outcome(true, if s.student.created then NewStudentMessage else UpdatedMessage, s.student.studentId),
                 s.application.applicationId, s.generated.next)
  }

  /** A successful call stores and reports what its stages produce, and the
      tasks take identifiers from the position after one per created record. */
  lemma ReconcileSteps(store: Store, p: ParsedOffer, ids: nat -> string, today: string, now: int)
    requires Complete(p)
    ensures var s := RunStages(store, p, ids, today, now);
      var r := Reconcile(store, p, ids, today, now);
      && r.store == Store(s.student.students, s.application.applications, s.generated.tasks)
      && r.outcome.studentId == s.student.studentId
      && r.applicationId == s.application.applicationId
      && s.afterApplication == (|r.store.students| - |store.students|) + (|r.store.applications| - |store.applications|)
  {
  }
}

=== FILE: reconcile_props.dfy ===
/** Properties of `processParsedOffer` that relate several calls or hold of
    every stored state: what each collection becomes, re-uploading the same
    letter, the two dedup invariants and identifier uniqueness. */
module ReconcileProperties {
  import opened Nullable
  import opened Text
  import opened Records
  import opened TaskRules
  import opened Queries
  import opened Reconciliation

  // ---- Merge policy ----

  /** Two applications that agree on identity, university, program and every
      overwritten field are the same record. */
  lemma ApplicationsEqual(a: Application, b: Application)
    requires a.application_id == b.application_id && a.student_id == b.student_id
    requires a.university == b.university && a.program == b.program
    requires Overwritten(a) == Overwritten(b)
    ensures a == b
  {
  }

  /** Merging the same letter twice is merging it once. */
  lemma MergeIdempotent(a: Application, p: ParsedOffer, today: string, now: int)
    ensures UpdatedApplication(UpdatedApplication(a, p, today, now), p, today, now) == UpdatedApplication(a, p, today, now)
  {
    ApplicationsEqual(UpdatedApplication(UpdatedApplication(a, p, today, now), p, today, now), UpdatedApplication(a, p, today, now));
  }

  /** Merging a letter into the application just created from it changes nothing. */
  lemma MergeFixesNew(id: string, studentId: string, university: string, p: ParsedOffer, today: string, now: int)
    ensures var n := NewApplication(id, studentId, university, p, today, now);
      UpdatedApplication(n, p, today, now) == n
  {
    var n := NewApplication(id, studentId, university, p, today, now);
    ApplicationsEqual(UpdatedApplication(n, p, today, now), n);
  }

  // ---- What each collection becomes ----

  /** Student resolution: a student is appended exactly when no stored name
      matches up to case; otherwise the first match is reused and the
      students are left as they were. The outcome's message says which. */
  lemma ReconcileResolvesStudent(store: Store, p: ParsedOffer, ids: nat -> string, today: string, now: int)
    ensures var r := Reconcile(store, p, ids, today, now);
      Complete(p) ==>
        var name := p.studentName.value;
        && ((forall j :: 0 <= j < |store.students| ==> !NameMatches(store.students[j], name)) ==>
              && r.store.students == store.students + [NewStudent(ids(0), name)]
              && r.outcome == Outcome(true, NewStudentMessage, ids(0)))
        && ((exists j :: 0 <= j < |store.students| && NameMatches(store.students[j], name)) ==>
              && r.store.students == store.students
              && r.outcome.message == UpdatedMessage
              && exists k :: FirstNameMatch(store.students, name, k) && r.outcome.studentId == store.students[k].student_id)
  {
  }

  /** Application resolution under the key (resolved student, university up
      to case): the first matching application is merged in place and every
      other one is left alone, or exactly one new application is appended,
      taking the identifier after the student's. */
  lemma ReconcileResolvesApplication(store: Store, p: ParsedOffer, ids: nat -> string, today: string, now: int)
    ensures var r := Reconcile(store, p, ids, today, now);
      Complete(p) ==>
        var sid := r.outcome.studentId;
        var uni := p.university.value;
        var used := |r.store.students| - |store.students|;
        && ((forall j :: 0 <= j < |store.applications| ==> !KeyMatches(store.applications[j], sid, uni)) ==>
              && r.store.applications == store.applications + [NewApplication(ids(used), sid, uni, p, today, now)]
              && r.applicationId == ids(used))
        && ((exists j :: 0 <= j < |store.applications| && KeyMatches(store.applications[j], sid, uni)) ==>
              exists k ::
                && FirstKeyMatch(store.applications, sid, uni, k)
                && r.store.applications == store.applications[k := UpdatedApplication(store.applications[k], p, today, now)]
                && r.applicationId == store.applications[k].application_id)
  {
  }

  /** Task generation: after a successful call the task list is exactly
      what the two rules make of the stored tasks for the resolved
      application, starting at the identifier after those the student and the
      application took. Every condition of a firing Rule A and, whenever a
      deposit deadline was parsed (whatever the offer type), the deposit
      marker are mentioned by a task of the application. Unless the raw tag is
      exactly "Conditional" with a condition list, only the deposit task can
      be added. */
  lemma ReconcileGeneratesTasks(store: Store, p: ParsedOffer, ids: nat -> string, today: string, now: int)
    ensures var r := Reconcile(store, p, ids, today, now);
      Complete(p) ==>
        var taken := (|r.store.students| - |store.students|) + (|r.store.applications| - |store.applications|);
        && r.store.tasks == GenerateTasks(store.tasks, r.applicationId, p, ids, taken).tasks
        && (ConditionRuleFires(p) ==> forall c :: c in p.conditions.value ==> Mentioned(r.store.tasks, r.applicationId, c))
        && (Truthy(p.depositDeadline) ==> Mentioned(r.store.tasks, r.applicationId, DepositMarker))
        && |r.store.tasks| - |store.tasks| <= |ListOrEmpty(p.conditions)| + 1
        && (!ConditionRuleFires(p) ==>
              r.store.tasks == AddDepositTask(store.tasks, r.applicationId, p.depositAmount, p.depositDeadline, ids, taken).tasks)
  {
    if Complete(p) {
      var s := RunStages(store, p, ids, today, now);
      ReconcileSteps(store, p, ids, today, now);
      GeneratedTasksCover(store.tasks, s.application.applicationId, p, ids, s.afterApplication);
    }
  }

  // ---- Re-uploading ----

  /** A second letter whose student name differs only in case finds the same
      student: no student is created and the same identifier is reported. */
  lemma StudentReuse(students: seq<Student>, name: string, name': string, freshId: string, freshId': string)
    requires Lower(name') == Lower(name)
    ensures var sc := ResolveStudent(students, name, freshId);
      var sc' := ResolveStudent(sc.students, name', freshId');
      sc' == StudentChoice(sc.students, sc.studentId, false)
  {
    var sc := ResolveStudent(students, name, freshId);
    var sc' := ResolveStudent(sc.students, name', freshId');
    if sc.created {
      assert NameMatches(sc.students[|students|], name');
      var k' :| FirstNameMatch(sc.students, name', k') && sc'.studentId == sc.students[k'].student_id;
      assert k' == |students| by {
        if k' < |students| {
          assert NameMatches(students[k'], name);
        }
      }
    } else {
      var k :| FirstNameMatch(students, name, k) && sc.studentId == students[k].student_id;
      assert NameMatches(sc.students[k], name');
      var k' :| FirstNameMatch(sc.students, name', k') && sc'.studentId == sc.students[k'].student_id;
      assert k' == k by {
        if k' < k {
          assert NameMatches(students[k'], name);
        }
      }
    }
  }

  /** When `k` holds the first application under the key, resolution merges into it. */
  lemma ResolveApplicationAt(apps: seq<Application>, sid: string, uni: string, p: ParsedOffer,
                             freshId: string, today: string, now: int, k: int)
    requires FirstKeyMatch(apps, sid, uni, k)
    ensures ResolveApplication(apps, sid, uni, p, freshId, today, now) ==
      ApplicationChoice(apps[k := UpdatedApplication(apps[k], p, today, now)], apps[k].application_id, false)
  {
    var ac := ResolveApplication(apps, sid, uni, p, freshId, today, now);
    var k' :| FirstKeyMatch(apps, sid, uni, k') &&
      ac.applications == apps[k' := UpdatedApplication(apps[k'], p, today, now)] &&
      ac.applicationId == apps[k'].application_id;
    assert k' == k;
  }

  /** A second letter for the same student and the same university up to case
      finds the same application and appends none; with the same letter and
      the same clock readings the application list does not change at all. */
  lemma ApplicationReuse(apps: seq<Application>, sid: string, uni: string, uni': string,
                         p: ParsedOffer, p': ParsedOffer, freshId: string, freshId': string,
                         today: string, now: int, today': string, now': int)
    requires Lower(uni') == Lower(uni)
    ensures var ac := ResolveApplication(apps, sid, uni, p, freshId, today, now);
      var ac' := ResolveApplication(ac.applications, sid, uni', p', freshId', today', now');
      && !ac'.created
      && ac'.applicationId == ac.applicationId
      && |ac'.applications| == |ac.applications|
      && (p' == p && today' == today && now' == now ==> ac'.applications == ac.applications)
  {
    var ac := ResolveApplication(apps, sid, uni, p, freshId, today, now);
    if ac.created {
      var n := NewApplication(freshId, sid, uni, p, today, now);
      assert ac.applications[|apps|] == n;
      assert FirstKeyMatch(ac.applications, sid, uni', |apps|);
      ResolveApplicationAt(ac.applications, sid, uni', p', freshId', today', now', |apps|);
      if p' == p && today' == today && now' == now {
        MergeFixesNew(freshId, sid, uni, p, today, now);
      }
    } else {
      var k :| FirstKeyMatch(apps, sid, uni, k) &&
        ac.applications == apps[k := UpdatedApplication(apps[k], p, today, now)] &&
        ac.applicationId == apps[k].application_id;
      assert FirstKeyMatch(ac.applications, sid, uni', k);
      ResolveApplicationAt(ac.applications, sid, uni', p', freshId', today', now', k);
      if p' == p && today' == today && now' == now {
        MergeIdempotent(apps[k], p, today, now);
      }
    }
  }

  /** Reconciling a letter a second time creates no student, application or
      task, takes no identifier, reports the same student as already known,
      and, with the same clock readings, leaves the store exactly as it was. */
  lemma ReconcileIdempotent(store: Store, p: ParsedOffer, ids: nat -> string, ids': nat -> string,
                            today: string, now: int, today': string, now': int)
    ensures var r := Reconcile(store, p, ids, today, now);
      var r' := Reconcile(r.store, p, ids', today', now');
      && r'.store.students == r.store.students
      && |r'.store.applications| == |r.store.applications|
      && r'.store.tasks == r.store.tasks
      && r'.idsUsed == 0
      && r'.outcome.studentId == r.outcome.studentId
      && r'.applicationId == r.applicationId
      && (Complete(p) ==> r'.outcome.message == UpdatedMessage)
      && (today' == today && now' == now ==> r'.store == r.store)
  {
    if Complete(p) {
      var s := RunStages(store, p, ids, today, now);
      StudentReuse(store.students, p.studentName.value, p.studentName.value, ids(0), ids'(0));
      ApplicationReuse(store.applications, s.student.studentId, p.university.value, p.university.value, p, p,
                       ids(s.afterStudent), ids'(0), today, now, today', now');
      GenerateTasksIdempotent(store.tasks, s.application.applicationId, p, ids, s.afterApplication, ids', 0);
    }
  }

  /** Case-insensitive matching across uploads: a second letter naming the
      same student in another case reuses the student, and, for the same
      university in any case, the application. */
  lemma ReuploadIgnoresCase(store: Store, p: ParsedOffer, q: ParsedOffer, ids: nat -> string, ids': nat -> string,
                            today: string, now: int, today': string, now': int)
    requires Complete(p) && Complete(q)
    requires Lower(q.studentName.value) == Lower(p.studentName.value)
    ensures var r := Reconcile(store, p, ids, today, now);
      var r' := Reconcile(r.store, q, ids', today', now');
      && r'.store.students == r.store.students
      && r'.outcome == Outcome(true, UpdatedMessage, r.outcome.studentId)
      && (Lower(q.university.value) == Lower(p.university.value) ==>
            |r'.store.applications| == |r.store.applications| && r'.applicationId == r.applicationId)
  {
    var s := RunStages(store, p, ids, today, now);
    StudentReuse(store.students, p.studentName.value, q.studentName.value, ids(0), ids'(0));
    if Lower(q.university.value) == Lower(p.university.value) {
      ApplicationReuse(store.applications, s.student.studentId, p.university.value, q.university.value, p, q,
                       ids(s.afterStudent), ids'(0), today, now, today', now');
    }
  }

  // ---- Invariants of the stored state ----

  /** No two students share a name up to case. */
  ghost predicate StudentNamesUnique(students: seq<Student>) {
    forall i, j :: 0 <= i < j < |students| ==> !NameMatches(students[j], students[i].name)
  }

  /** At most one application per (student, university up to case). */
  ghost predicate ApplicationKeysUnique(apps: seq<Application>) {
    forall i, j :: 0 <= i < j < |apps| ==> !KeyMatches(apps[j], apps[i].student_id, apps[i].university)
  }

  /** Resolving a student keeps names unique up to case. */
  lemma StudentNamesStayUnique(students: seq<Student>, name: string, freshId: string)
    requires StudentNamesUnique(students)
    ensures StudentNamesUnique(ResolveStudent(students, name, freshId).students)
  {
  }

  /** Resolving an application keeps the (student, university) key unique. */
  lemma ApplicationKeysStayUnique(apps: seq<Application>, sid: string, uni: string, p: ParsedOffer,
                                  freshId: string, today: string, now: int)
    requires ApplicationKeysUnique(apps)
    ensures ApplicationKeysUnique(ResolveApplication(apps, sid, uni, p, freshId, today, now).applications)
  {
    var ac := ResolveApplication(apps, sid, uni, p, freshId, today, now);
    if !ac.created {
      var k :| FirstKeyMatch(apps, sid, uni, k) && ac.applications == apps[k := UpdatedApplication(apps[k], p, today, now)];
      forall i | 0 <= i < |ac.applications|
        ensures ac.applications[i].student_id == apps[i].student_id
        ensures ac.applications[i].university == apps[i].university
      {
      }
    }
  }

  /** Reconciliation keeps both dedup keys unique. */
  lemma ReconcileKeepsKeysUnique(store: Store, p: ParsedOffer, ids: nat -> string, today: string, now: int)
    requires StudentNamesUnique(store.students)
    requires ApplicationKeysUnique(store.applications)
    ensures var r := Reconcile(store, p, ids, today, now);
      StudentNamesUnique(r.store.students) && ApplicationKeysUnique(r.store.applications)
  {
    if Complete(p) {
      var s := RunStages(store, p, ids, today, now);
      StudentNamesStayUnique(store.students, p.studentName.value, ids(0));
      ApplicationKeysStayUnique(store.applications, s.student.studentId, p.university.value, p, ids(s.afterStudent), today, now);
    }
  }

  ghost predicate StudentIdsDistinct(students: seq<Student>) {
    forall i, j :: 0 <= i < j < |students| ==> students[i].student_id != students[j].student_id
  }

  ghost predicate ApplicationIdsDistinct(apps: seq<Application>) {
    forall i, j :: 0 <= i < j < |apps| ==> apps[i].application_id != apps[j].application_id
  }

  ghost predicate TaskIdsDistinct(tasks: seq<Task>) {
    forall i, j :: 0 <= i < j < |tasks| ==> tasks[i].task_id != tasks[j].task_id
  }

  /** Identifiers are distinct within each collection. */
  ghost predicate IdsDistinct(store: Store) {
    StudentIdsDistinct(store.students) && ApplicationIdsDistinct(store.applications) && TaskIdsDistinct(store.tasks)
  }

  /** The identifier stream never repeats itself. */
  ghost predicate Injective(ids: nat -> string) {
    forall m: nat, n: nat :: m != n ==> ids(m) != ids(n)
  }

  /** The identifier stream never repeats itself and never yields an
      identifier already stored. */
  ghost predicate FreshIds(ids: nat -> string, store: Store) {
    && Injective(ids)
    && (forall m: nat, i :: 0 <= i < |store.students| ==> ids(m) != store.students[i].student_id)
    && (forall m: nat, i :: 0 <= i < |store.applications| ==> ids(m) != store.applications[i].application_id)
    && (forall m: nat, i :: 0 <= i < |store.tasks| ==> ids(m) != store.tasks[i].task_id)
  }

  /** A fresh identifier keeps student identifiers distinct. */
  lemma StudentIdsStayDistinct(students: seq<Student>, name: string, freshId: string)
    requires StudentIdsDistinct(students)
    requires forall i :: 0 <= i < |students| ==> students[i].student_id != freshId
    ensures StudentIdsDistinct(ResolveStudent(students, name, freshId).students)
  {
  }

  /** A fresh identifier keeps application identifiers distinct; a merge keeps the identifier. */
  lemma ApplicationIdsStayDistinct(apps: seq<Application>, sid: string, uni: string, p: ParsedOffer,
                                   freshId: string, today: string, now: int)
    requires ApplicationIdsDistinct(apps)
    requires forall i :: 0 <= i < |apps| ==> apps[i].application_id != freshId
    ensures ApplicationIdsDistinct(ResolveApplication(apps, sid, uni, p, freshId, today, now).applications)
  {
    var ac := ResolveApplication(apps, sid, uni, p, freshId, today, now);
    if !ac.created {
      var k :| FirstKeyMatch(apps, sid, uni, k) && ac.applications == apps[k := UpdatedApplication(apps[k], p, today, now)];
      forall i | 0 <= i < |ac.applications|
        ensures ac.applications[i].application_id == apps[i].application_id
      {
      }
    }
  }

  /** Tasks appended under identifiers of an injective stream that were not
      stored before keep task identifiers distinct. */
  lemma TaskIdsStayDistinct(tasks: seq<Task>, g: Generated, appId: string, ids: nat -> string, next: nat)
    requires TaskIdsDistinct(tasks)
    requires Injective(ids)
    requires forall m: nat, i :: 0 <= i < |tasks| ==> ids(m) != tasks[i].task_id
    requires Appends(tasks, g, appId, ids, next)
    ensures TaskIdsDistinct(g.tasks)
  {
    var n := |tasks|;
    forall i, j | 0 <= i < j < |g.tasks|
      ensures g.tasks[i].task_id != g.tasks[j].task_id
    {
      if j < n {
        assert g.tasks[..n][i] == g.tasks[i] && g.tasks[..n][j] == g.tasks[j];
      } else if i < n {
        assert g.tasks[..n][i] == g.tasks[i];
        assert g.tasks[j].task_id == ids(next + (j - n));
      } else {
        assert g.tasks[i].task_id == ids(next + (i - n));
        assert g.tasks[j].task_id == ids(next + (j - n));
      }
    }
  }

  /** With a fresh identifier stream, reconciliation keeps identifiers distinct. */
  lemma ReconcileKeepsIdsDistinct(store: Store, p: ParsedOffer, ids: nat -> string, today: string, now: int)
    requires IdsDistinct(store)
    requires FreshIds(ids, store)
    ensures IdsDistinct(Reconcile(store, p, ids, today, now).store)
  {
    if Complete(p) {
      var s := RunStages(store, p, ids, today, now);
      StudentIdsStayDistinct(store.students, p.studentName.value, ids(0));
      ApplicationIdsStayDistinct(store.applications, s.student.studentId, p.university.value, p, ids(s.afterStudent), today, now);
      TaskIdsStayDistinct(store.tasks, s.generated, s.application.applicationId, ids, s.afterApplication);
    }
  }

  // ---- Links between the records ----

  /** The resolved student is stored under the parsed name. */
  lemma ResolvedStudentStored(students: seq<Student>, name: string, freshId: string)
    ensures var sc := ResolveStudent(students, name, freshId);
      exists i :: 0 <= i < |sc.students| && sc.students[i].student_id == sc.studentId && NameMatches(sc.students[i], name)
  {
    var sc := ResolveStudent(students, name, freshId);
    if sc.created {
      assert sc.students[|students|].student_id == sc.studentId;
    }
  }

  /** The resolved application is stored under the (student, university) key. */
  lemma ResolvedApplicationStored(apps: seq<Application>, sid: string, uni: string, p: ParsedOffer,
                                  freshId: string, today: string, now: int)
    ensures var ac := ResolveApplication(apps, sid, uni, p, freshId, today, now);
      exists k :: 0 <= k < |ac.applications| && ac.applications[k].application_id == ac.applicationId &&
        KeyMatches(ac.applications[k], sid, uni)
  {
    var ac := ResolveApplication(apps, sid, uni, p, freshId, today, now);
    if ac.created {
      assert ac.applications[|apps|].application_id == ac.applicationId;
    } else {
      var k :| FirstKeyMatch(apps, sid, uni, k) &&
        ac.applications == apps[k := UpdatedApplication(apps[k], p, today, now)] &&
        ac.applicationId == apps[k].application_id;
      assert ac.applications[k].application_id == ac.applicationId;
    }
  }

  /** After a successful call the reported student is stored under the
      parsed name, and the application is stored under the (student,
      university) key and appears in that student's application view. */
  lemma ReconcileLinksRecords(store: Store, p: ParsedOffer, ids: nat -> string, today: string, now: int)
    requires Complete(p)
    ensures var r := Reconcile(store, p, ids, today, now);
      && (exists i :: 0 <= i < |r.store.students| && r.store.students[i].student_id == r.outcome.studentId &&
            NameMatches(r.store.students[i], p.studentName.value))
      && (exists k :: 0 <= k < |r.store.applications| && r.store.applications[k].application_id == r.applicationId &&
            KeyMatches(r.store.applications[k], r.outcome.studentId, p.university.value) &&
            r.store.applications[k] in ApplicationsForStudent(r.store.applications, r.outcome.studentId))
  {
    var s := RunStages(store, p, ids, today, now);
    ReconcileSteps(store, p, ids, today, now);
    ResolvedStudentStored(store.students, p.studentName.value, ids(0));
    ResolvedApplicationStored(store.applications, s.student.studentId, p.university.value, p, ids(s.afterStudent), today, now);
  }

  /** The new tasks extend exactly the resolved application's task view, in
      order, and the view of every other application is untouched. */
  lemma ReconcileTaskViews(store: Store, p: ParsedOffer, ids: nat -> string, today: string, now: int, other: string)
    ensures var r := Reconcile(store, p, ids, today, now);
      && TasksForApplication(r.store.tasks, r.applicationId) ==
           TasksForApplication(store.tasks, r.applicationId) + r.store.tasks[|store.tasks|..]
      && (other != r.applicationId ==> TasksForApplication(r.store.tasks, other) == TasksForApplication(store.tasks, other))
  {
    var r := Reconcile(store, p, ids, today, now);
    var added := r.store.tasks[|store.tasks|..];
    assert r.store.tasks == store.tasks + added;
    TasksForApplicationAfterAppend(store.tasks, added, r.applicationId);
    if other != r.applicationId {
      OtherTasksAfterAppend(store.tasks, added, r.applicationId, other);
    }
  }
}

=== FILE: records.dfy ===
/** The records the dashboard keeps: students, their applications, the
    follow-up tasks of each application, and the record the offer-letter
    extractor hands to the reconciliation. Field names follow the stored
    records. */
module Records {
  import opened Nullable

  /** Coarse outcome of an application; `NoStatus` is the service's `None`. */
  datatype OfferStatus = NoStatus | Offer | Reject | Waitlist

  /** Conditionality of an offer. */
  datatype OfferType = Conditional | Unconditional | Unknown

  datatype TaskStatus = Pending | Done

  datatype Student = Student(
    student_id: string,
    name: string,
    contact: Option<string>,
    consultant_name: Option<string>,
    notes: Option<string>)

  /** `last_updated_timestamp` is a millisecond clock reading. */
  datatype Application = Application(
    application_id: string,
    student_id: string,
    university: string,
    program: string,
    offer_status: OfferStatus,
    offer_type: OfferType,
    offer_date: Option<string>,
    deposit_amount: Option<string>,
    deposit_deadline: Option<string>,
    tasks_to_do: seq<string>,
    raw_pdf_text: Option<string>,
    last_updated_timestamp: int,
    school_id_ref: Option<string>)

  datatype Task = Task(
    task_id: string,
    application_id: string,
    task_description: string,
    deadline: Option<string>,
    status: TaskStatus)

  /** What the extractor returns; every field may be missing. `offerType` is
      kept as an open string: the extractor is asked for one of four labels
      but is not bound to them. */
  datatype ParsedOffer = ParsedOffer(
    studentName: Option<string>,
    university: Option<string>,
    program: Option<string>,
    offerType: Option<string>,
    conditions: Option<seq<string>>,
    depositAmount: Option<string>,
    depositDeadline: Option<string>,
    startTerm: Option<string>,
    offerDate: Option<string>,
    schoolId: Option<string>,
    nextSteps: Option<seq<string>>,
    keySentences: Option<string>)
}

=== FILE: scenarios.dfy ===
/** Worked scenarios: the raw-tag gate of Rule A, and the dedup behaviour of the task rules from an
    empty store, for one conditional offer letter uploaded twice. */
module Scenarios {
  import opened Nullable
  import opened Text
  import opened Records
  import opened Classify
  import opened TaskRules
  import opened Reconciliation
  import opened ReconcileProperties

  /** Rule A tests the raw tag, not its classification: the lower-case tag
      "conditional" is typed Conditional, yet without a deposit deadline its
      condition list adds no task. */
  lemma LowerCaseTagSkipsRuleA(tasks: seq<Task>, appId: string, p: ParsedOffer, ids: nat -> string, next: nat)
    requires p.offerType == Some("conditional") && !Truthy(p.depositDeadline)
    ensures OfferTypeOf(p.offerType) == Conditional
    ensures !ConditionRuleFires(p)
    ensures GenerateTasks(tasks, appId, p, ids, next) == Generated(tasks, next)
  {
    assert Lower("conditional") == "conditional";
    ConditionalLabel("conditional");
    assert "conditional" != "Conditional" by {
      assert "conditional"[0] != "Conditional"[0];
    }
  }

  /** From no tasks, the two rules for one condition and a deposit deadline
      add the condition task and then the deposit task, unless the condition
      task already reads as a deposit task. */
  lemma TwoRulesFromNoTasks(p: ParsedOffer, c: string, appId: string, ids: nat -> string, next: nat)
    requires ConditionRuleFires(p) && p.conditions.value == [c]
    requires Truthy(p.depositDeadline)
    requires !Contains(ConditionPrefix + c, DepositMarker)
    ensures GenerateTasks([], appId, p, ids, next) ==
      Generated([ConditionTask(ids(next), appId, c), DepositTask(ids(next + 1), appId, p.depositAmount, p.depositDeadline)], next + 2)
  {
    var t := ConditionTask(ids(next), appId, c);
    assert AddConditionTasks([t], appId, [], ids, next + 1) == Generated([t], next + 1);
    assert AddConditionTasks([], appId, [c], ids, next) == Generated([t], next + 1);
    assert !Mentioned([t], appId, DepositMarker);
  }

  /** A condition whose task text contains the deposit marker suppresses
      Rule B: the condition task is the only task, and the parsed deposit
      deadline is carried by no task. */
  lemma MarkerInConditionSuppressesDeposit(p: ParsedOffer, c: string, appId: string, ids: nat -> string, next: nat)
    requires ConditionRuleFires(p) && p.conditions.value == [c]
    requires Contains(ConditionPrefix + c, DepositMarker)
    ensures GenerateTasks([], appId, p, ids, next) == Generated([ConditionTask(ids(next), appId, c)], next + 1)
  {
    var t := ConditionTask(ids(next), appId, c);
    assert AddConditionTasks([t], appId, [], ids, next + 1) == Generated([t], next + 1);
    assert AddConditionTasks([], appId, [c], ids, next) == Generated([t], next + 1);
    assert t in [t];
    assert Mentioned([t], appId, DepositMarker);
  }

  /** The condition "缴纳押金" ("pay deposit") itself is such a condition. */
  lemma DepositConditionSuppressesDeposit(p: ParsedOffer, appId: string, ids: nat -> string, next: nat)
    requires ConditionRuleFires(p) && p.conditions.value == [DepositMarker]
    ensures GenerateTasks([], appId, p, ids, next) == Generated([ConditionTask(ids(next), appId, DepositMarker)], next + 1)
  {
    ContainsSuffix(ConditionPrefix, DepositMarker);
    MarkerInConditionSuppressesDeposit(p, DepositMarker, appId, ids, next);
  }

  /** A conditional offer with one condition and a deposit deadline, uploaded
      twice into an empty store, leaves one student, one application, one
      condition task and one deposit task. */
  lemma ConditionalOfferUploadedTwice(p: ParsedOffer, c: string, ids: nat -> string, ids': nat -> string, today: string, now: int)
    requires Complete(p) && ConditionRuleFires(p) && p.conditions.value == [c]
    requires Truthy(p.depositDeadline)
    requires !Contains(ConditionPrefix + c, DepositMarker)
    ensures var r := Reconcile(Store([], [], []), p, ids, today, now);
      var r' := Reconcile(r.store, p, ids', today, now);
      && r'.store == r.store
      && |r'.store.students| == 1 && |r'.store.applications| == 1
      && r'.store.tasks == [ConditionTask(ids(2), ids(1), c), DepositTask(ids(3), ids(1), p.depositAmount, p.depositDeadline)]
  {
    var empty := Store([], [], []);
    var s := RunStages(empty, p, ids, today, now);
    TwoRulesFromNoTasks(p, c, ids(1), ids, 2);
    ReconcileIdempotent(empty, p, ids, ids', today, now, today, now);
  }

  /** A conditional offer for "Alice Tan" at "MIT" with the one condition
      "IELTS 7.0" and a deposit deadline of 2025-06-01, uploaded twice into an
      empty store, leaves one student, one application and two tasks. */
  lemma IeltsOfferUploadedTwice(ids: nat -> string, ids': nat -> string, today: string, now: int)
    ensures
      var p := ParsedOffer(Some("Alice Tan"), Some("MIT"), None, Some("Conditional"), Some(["IELTS 7.0"]),
                           None, Some("2025-06-01"), None, None, None, None, None);
      var r := Reconcile(Store([], [], []), p, ids, today, now);
      var r' := Reconcile(r.store, p, ids', today, now);
      |r'.store.students| == 1 && |r'.store.applications| == 1 && |r'.store.tasks| == 2
  {
    var p := ParsedOffer(Some("Alice Tan"), Some("MIT"), None, Some("Conditional"), Some(["IELTS 7.0"]),
                         None, Some("2025-06-01"), None, None, None, None, None);
    NotContainsWithoutFirstChar(ConditionPrefix + "IELTS 7.0", DepositMarker);
    ConditionalOfferUploadedTwice(p, "IELTS 7.0", ids, ids', today, now);
  }
}

=== FILE: seqs.dfy ===
/** The two array operations the offer service uses, on sequences: `findIndex`
    (and `find`, which is `findIndex` followed by an index) and `filter`. */
module Seqs {
  import opened Nullable

  /** `s.findIndex(p)`: the position of the first element satisfying `p`, if any. */
  function FirstIndex<T>(s: seq<T>, p: T -> bool): (r: Option<nat>)
    ensures r.Some? ==> r.value < |s| && p(s[r.value])
    ensures r.Some? ==> forall j :: 0 <= j < r.value ==> !p(s[j])
    ensures r.None? <==> forall j :: 0 <= j < |s| ==> !p(s[j])
  {
    if |s| == 0 then None
    else if p(s[0]) then Some(0)
    else
      match FirstIndex(s[1..], p)
      case None => None
      case Some(k) => Some(k + 1)
  }

  /** `s.filter(p)`: the elements satisfying `p`, in their original order. */
  function Filter<T>(s: seq<T>, p: T -> bool): (r: seq<T>)
    ensures |r| <= |s|
    ensures forall i :: 0 <= i < |r| ==> r[i] in s && p(r[i])
    ensures forall i :: 0 <= i < |s| && p(s[i]) ==> s[i] in r
  {
    if |s| == 0 then []
    else (if p(s[0]) then [s[0]] else []) + Filter(s[1..], p)
  }

  /** Filtering a concatenation filters each part and keeps them in order. */
  lemma {:induction false} FilterDistributes<T>(a: seq<T>, b: seq<T>, p: T -> bool)
    ensures Filter(a + b, p) == Filter(a, p) + Filter(b, p)
    decreases |a|
  {
    if |a| == 0 {
      assert a + b == b;
    } else {
      var head := if p(a[0]) then [a[0]] else [];
      assert (a + b)[0] == a[0];
      assert (a + b)[1..] == a[1..] + b;
      calc {
        Filter(a + b, p);
        head + Filter(a[1..] + b, p);
        { FilterDistributes(a[1..], b, p); }
        head + (Filter(a[1..], p) + Filter(b, p));
        (head + Filter(a[1..], p)) + Filter(b, p);
        Filter(a, p) + Filter(b, p);
      }
    }
  }

  /** A sequence every element of which satisfies `p` is its own filter. */
  lemma {:induction false} FilterKeepsAll<T>(s: seq<T>, p: T -> bool)
    requires forall i :: 0 <= i < |s| ==> p(s[i])
    ensures Filter(s, p) == s
    decreases |s|
  {
    if |s| > 0 {
      FilterKeepsAll(s[1..], p);
      assert [s[0]] + s[1..] == s;
    }
  }

  /** A sequence no element of which satisfies `p` filters to nothing. */
  lemma {:induction false} FilterKeepsNone<T>(s: seq<T>, p: T -> bool)
    requires forall i :: 0 <= i < |s| ==> !p(s[i])
    ensures Filter(s, p) == []
    decreases |s|
  {
    if |s| > 0 {
      FilterKeepsNone(s[1..], p);
    }
  }
}

=== FILE: taskrules.dfy ===
/** Follow-up tasks generated by a reconciliation, and the one task mutation
    the presentation layer performs (marking a task done or pending). Tasks are
    only ever appended; a new task takes the next identifier of the stream. */
module TaskRules {
  import opened Nullable
  import opened Text
  import opened Seqs
  import opened Records

  /** Template of a condition task: this text followed by the condition. */
  const ConditionPrefix: string := "满足录取条件: "
  /** Marker that makes a task the deposit task ("pay deposit"). */
  const DepositMarker: string := "缴纳押金"
  /** Placeholder for a missing deposit amount ("amount to be decided"). */
  const AmountPending: string := "金额待定"

  /** The task list after a rule ran, and the next unused position of the identifier stream. */
  datatype Generated = Generated(tasks: seq<Task>, next: nat)

  /** Some task of application `appId` has `text` in its description: the duplicate guard of both rules. */
  predicate Mentioned(tasks: seq<Task>, appId: string, text: string) {
    exists t :: t in tasks && t.application_id == appId && Contains(t.task_description, text)
  }

  function ConditionTask(id: string, appId: string, condition: string): Task {
    Task(id, appId, ConditionPrefix + condition, None, Pending)
  }

  function DepositTask(id: string, appId: string, amount: Option<string>, deadline: Option<string>): Task {
    Task(id, appId, DepositMarker + " (" + OrElse(amount, AmountPending) + ")", deadline, Pending)
  }

  /** `g` is `tasks` followed by new pending tasks of application `appId`,
      one per identifier taken from the stream between `next` and `g.next`. */
  ghost predicate Appends(tasks: seq<Task>, g: Generated, appId: string, ids: nat -> string, next: nat) {
    && next <= g.next
    && |g.tasks| == |tasks| + (g.next - next)
    && g.tasks[..|tasks|] == tasks
    && forall k :: |tasks| <= k < |g.tasks| ==>
         && g.tasks[k].task_id == ids(next + (k - |tasks|))
         && g.tasks[k].application_id == appId
         && g.tasks[k].status == Pending
  }

  /** Appending in two steps is appending. */
  lemma AppendsTrans(t0: seq<Task>, g1: Generated, g2: Generated, appId: string, ids: nat -> string, n0: nat)
    requires Appends(t0, g1, appId, ids, n0)
    requires Appends(g1.tasks, g2, appId, ids, g1.next)
    ensures Appends(t0, g2, appId, ids, n0)
  {
    assert g2.tasks[..|t0|] == g2.tasks[..|g1.tasks|][..|t0|];
    forall k | |t0| <= k < |g1.tasks|
      ensures g2.tasks[k] == g1.tasks[k]
    {
      assert g2.tasks[..|g1.tasks|][k] == g2.tasks[k];
    }
  }

  /** A description found in a list is still found after the list grows at the end. */
  lemma MentionedGrows(tasks: seq<Task>, longer: seq<Task>, appId: string, text: string)
    requires |tasks| <= |longer| && longer[..|tasks|] == tasks
    requires Mentioned(tasks, appId, text)
    ensures Mentioned(longer, appId, text)
  {
    var t :| t in tasks && t.application_id == appId && Contains(t.task_description, text);
    var i :| 0 <= i < |tasks| && tasks[i] == t;
    assert longer[..|tasks|][i] == longer[i];
  }

  /** No two tasks from position `from` on share a description. */
  ghost predicate DistinctDescriptionsFrom(tasks: seq<Task>, from: int) {
    forall i, j :: 0 <= from <= i < j < |tasks| ==> tasks[i].task_description != tasks[j].task_description
  }

  /** `t` is the condition task of some condition in `conditions` that no
      task of application `appId` in `before` mentions. */
  ghost predicate FromNewCondition(t: Task, conditions: seq<string>, before: seq<Task>, appId: string) {
    exists c :: c in conditions && t.task_description == ConditionPrefix + c && !Mentioned(before, appId, c)
  }

  /** Fewer conditions and more tasks before only make `FromNewCondition` harder to meet. */
  lemma FromNewConditionWeakens(t: Task, rest: seq<string>, conditions: seq<string>, before: seq<Task>, longer: seq<Task>, appId: string)
    requires forall c :: c in rest ==> c in conditions
    requires |before| <= |longer| && longer[..|before|] == before
    requires FromNewCondition(t, rest, longer, appId)
    ensures FromNewCondition(t, conditions, before, appId)
  {
    var c :| c in rest && t.task_description == ConditionPrefix + c && !Mentioned(longer, appId, c);
    if Mentioned(before, appId, c) {
      MentionedGrows(before, longer, appId, c);
    }
  }

  /** Two condition descriptions are equal only for equal conditions. */
  lemma ConditionDescriptionInjective(c: string, d: string)
    requires ConditionPrefix + c == ConditionPrefix + d
    ensures c == d
  {
    assert (ConditionPrefix + c)[|ConditionPrefix|..] == c;
    assert (ConditionPrefix + d)[|ConditionPrefix|..] == d;
  }

  /** Rule A: one pending task per condition, skipping a condition that some
      task of the application already mentions (including one added for an
      earlier condition of the same list). Every new task comes from a
      condition that no task mentioned before, and no two new tasks share a
      description. */
  function AddConditionTasks(tasks: seq<Task>, appId: string, conditions: seq<string>, ids: nat -> string, next: nat): (g: Generated)
    ensures Appends(tasks, g, appId, ids, next)
    ensures g.next - next <= |conditions|
    ensures forall k :: |tasks| <= k < |g.tasks| ==>
      g.tasks[k].deadline == None && FromNewCondition(g.tasks[k], conditions, tasks, appId)
    ensures DistinctDescriptionsFrom(g.tasks, |tasks|)
    decreases |conditions|
  {
    if |conditions| == 0 then Generated(tasks, next)
    else
      var c := conditions[0];
      var step := if Mentioned(tasks, appId, c) then Generated(tasks, next)
                  else Generated(tasks + [ConditionTask(ids(next), appId, c)], next + 1);
      var g := AddConditionTasks(step.tasks, appId, conditions[1..], ids, step.next);
      AppendsTrans(tasks, step, g, appId, ids, next);
      NewConditionTasksStep(tasks, appId, conditions, step.tasks, g.tasks);
      g
  }

  /** The inductive step of Rule A's contract: the task added for the first
      condition, if any, is followed by tasks for conditions that neither the
      old list nor that task mentions. */
  lemma NewConditionTasksStep(tasks: seq<Task>, appId: string, conditions: seq<string>, step: seq<Task>, result: seq<Task>)
    requires |conditions| > 0
    requires step == tasks || (!Mentioned(tasks, appId, conditions[0]) &&
      |step| == |tasks| + 1 && step[..|tasks|] == tasks && step[|tasks|].application_id == appId &&
      step[|tasks|].task_description == ConditionPrefix + conditions[0] && step[|tasks|].deadline == None)
    requires |step| <= |result| && result[..|step|] == step
    requires forall k :: |step| <= k < |result| ==>
      result[k].deadline == None && FromNewCondition(result[k], conditions[1..], step, appId)
    requires DistinctDescriptionsFrom(result, |step|)
    ensures forall k :: |tasks| <= k < |result| ==>
      result[k].deadline == None && FromNewCondition(result[k], conditions, tasks, appId)
    ensures DistinctDescriptionsFrom(result, |tasks|)
  {
    var n := |tasks|;
    assert step[..n] == tasks;
    forall c | c in conditions[1..]
      ensures c in conditions
    {
    }
    forall k | n <= k < |result|
      ensures result[k].deadline == None && FromNewCondition(result[k], conditions, tasks, appId)
    {
      if k < |step| {
        assert result[..|step|][k] == result[k];
        assert conditions[0] in conditions;
      } else {
        FromNewConditionWeakens(result[k], conditions[1..], conditions, tasks, step, appId);
      }
    }
    if step != tasks {
      assert result[..|step|][n] == result[n];
      ContainsSuffix(ConditionPrefix, conditions[0]);
      assert step[n] in step;
      assert Mentioned(step, appId, conditions[0]);
      forall j | n < j < |result|
        ensures result[n].task_description != result[j].task_description
      {
        var c :| c in conditions[1..] && result[j].task_description == ConditionPrefix + c && !Mentioned(step, appId, c);
        if result[j].task_description == result[n].task_description {
          ConditionDescriptionInjective(c, conditions[0]);
        }
      }
    }
  }

  /** Rule B: one pending task carrying the deposit deadline, unless some task
      of the application already carries the deposit marker. */
  function AddDepositTask(tasks: seq<Task>, appId: string, amount: Option<string>, deadline: Option<string>, ids: nat -> string, next: nat): (g: Generated)
    ensures Appends(tasks, g, appId, ids, next)
    ensures g.next - next <= 1
    ensures forall k :: |tasks| <= k < |g.tasks| ==>
      && g.tasks[k].deadline == deadline && Truthy(deadline)
      && g.tasks[k].task_description == DepositMarker + " (" + OrElse(amount, AmountPending) + ")"
    ensures g.next > next <==> Truthy(deadline) && !Mentioned(tasks, appId, DepositMarker)
  {
    if Truthy(deadline) && !Mentioned(tasks, appId, DepositMarker) then
      Generated(tasks + [DepositTask(ids(next), appId, amount, deadline)], next + 1)
    else
      Generated(tasks, next)
  }

  /** Rule A fires only for the exact extractor tag "Conditional" with a condition list. */
  predicate ConditionRuleFires(p: ParsedOffer) {
    p.offerType == Some("Conditional") && p.conditions.Some?
  }

  /** Both rules, A then B, for the application `appId` the record was merged into. */
  function GenerateTasks(tasks: seq<Task>, appId: string, p: ParsedOffer, ids: nat -> string, next: nat): (g: Generated)
    ensures Appends(tasks, g, appId, ids, next)
    ensures g.next - next <= |ListOrEmpty(p.conditions)| + 1
    ensures !ConditionRuleFires(p) ==> g == AddDepositTask(tasks, appId, p.depositAmount, p.depositDeadline, ids, next)
  {
    var afterA := if ConditionRuleFires(p) then AddConditionTasks(tasks, appId, p.conditions.value, ids, next)
                  else Generated(tasks, next);
    var afterB := AddDepositTask(afterA.tasks, appId, p.depositAmount, p.depositDeadline, ids, afterA.next);
    AppendsTrans(tasks, afterA, afterB, appId, ids, next);
    afterB
  }

  /** After Rule A every listed condition is mentioned by a task of the application. */
  lemma {:induction false} ConditionsCovered(tasks: seq<Task>, appId: string, conditions: seq<string>, ids: nat -> string, next: nat)
    ensures forall c :: c in conditions ==> Mentioned(AddConditionTasks(tasks, appId, conditions, ids, next).tasks, appId, c)
    decreases |conditions|
  {
    if |conditions| > 0 {
      var c := conditions[0];
      var step := if Mentioned(tasks, appId, c) then Generated(tasks, next)
                  else Generated(tasks + [ConditionTask(ids(next), appId, c)], next + 1);
      var g := AddConditionTasks(tasks, appId, conditions, ids, next);
      assert g == AddConditionTasks(step.tasks, appId, conditions[1..], ids, step.next);
      if !Mentioned(tasks, appId, c) {
        ContainsSuffix(ConditionPrefix, c);
        assert step.tasks[|tasks|] in step.tasks;
      }
      MentionedGrows(step.tasks, g.tasks, appId, c);
      ConditionsCovered(step.tasks, appId, conditions[1..], ids, step.next);
      forall c' | c' in conditions
        ensures Mentioned(g.tasks, appId, c')
      {
        if c' != c {
          assert c' in conditions[1..];
        }
      }
    }
  }

  /** The per-condition duplicate guard: a condition some task of the
      application already mentions gets no new task, whatever the other
      conditions of the list. */
  lemma MentionedConditionSkipped(tasks: seq<Task>, appId: string, conditions: seq<string>, ids: nat -> string, next: nat, c: string)
    requires Mentioned(tasks, appId, c)
    ensures var g := AddConditionTasks(tasks, appId, conditions, ids, next);
      forall k :: |tasks| <= k < |g.tasks| ==> g.tasks[k].task_description != ConditionPrefix + c
  {
    var g := AddConditionTasks(tasks, appId, conditions, ids, next);
    forall k | |tasks| <= k < |g.tasks|
      ensures g.tasks[k].task_description != ConditionPrefix + c
    {
      var d :| d in conditions && g.tasks[k].task_description == ConditionPrefix + d && !Mentioned(tasks, appId, d);
      if g.tasks[k].task_description == ConditionPrefix + c {
        ConditionDescriptionInjective(c, d);
      }
    }
  }

  /** Rule A is a left fold over the condition list: each condition is
      checked against the tasks as they stand at its turn, including those
      pushed for earlier conditions of the same list. */
  lemma {:induction false} AddConditionTasksSnoc(tasks: seq<Task>, appId: string, cs: seq<string>, c: string,
                                                 ids: nat -> string, next: nat)
    ensures AddConditionTasks(tasks, appId, cs + [c], ids, next) ==
      var g := AddConditionTasks(tasks, appId, cs, ids, next);
      if Mentioned(g.tasks, appId, c) then g
      else Generated(g.tasks + [ConditionTask(ids(g.next), appId, c)], g.next + 1)
    decreases |cs|
  {
    if |cs| == 0 {
      assert cs + [c] == [c];
      assert [c][1..] == [];
    } else {
      assert (cs + [c])[0] == cs[0];
      assert (cs + [c])[1..] == cs[1..] + [c];
      var step := if Mentioned(tasks, appId, cs[0]) then Generated(tasks, next)
                  else Generated(tasks + [ConditionTask(ids(next), appId, cs[0])], next + 1);
      AddConditionTasksSnoc(step.tasks, appId, cs[1..], c, ids, step.next);
    }
  }

  /** The other half of the per-condition guard: a condition that no task of
      the application mentions, and that no earlier condition's task text
      contains, gets a task of its own. */
  lemma {:induction false} UnmentionedConditionGetsTask(tasks: seq<Task>, appId: string, conditions: seq<string>,
                                                        ids: nat -> string, next: nat, i: int)
    requires 0 <= i < |conditions|
    requires !Mentioned(tasks, appId, conditions[i])
    requires forall j :: 0 <= j < i ==> !Contains(ConditionPrefix + conditions[j], conditions[i])
    ensures exists k ::
      && |tasks| <= k < |AddConditionTasks(tasks, appId, conditions, ids, next).tasks|
      && AddConditionTasks(tasks, appId, conditions, ids, next).tasks[k].task_description == ConditionPrefix + conditions[i]
    decreases |conditions|
  {
    var c := conditions[0];
    var step := if Mentioned(tasks, appId, c) then Generated(tasks, next)
                else Generated(tasks + [ConditionTask(ids(next), appId, c)], next + 1);
    var g := AddConditionTasks(tasks, appId, conditions, ids, next);
    assert g == AddConditionTasks(step.tasks, appId, conditions[1..], ids, step.next);
    if i == 0 {
      assert g.tasks[..|step.tasks|][|tasks|] == g.tasks[|tasks|];
    } else {
      var rest := conditions[1..];
      assert !Mentioned(step.tasks, appId, rest[i - 1]) by {
        if step.tasks != tasks {
          assert !Contains(ConditionPrefix + conditions[0], conditions[i]);
        }
      }
      forall j | 0 <= j < i - 1
        ensures !Contains(ConditionPrefix + rest[j], rest[i - 1])
      {
        assert rest[j] == conditions[j + 1];
      }
      UnmentionedConditionGetsTask(step.tasks, appId, rest, ids, step.next, i - 1);
    }
  }

  /** Task `t` is the condition task of `conditions[i]`. */
  predicate IsConditionTaskOf(t: Task, conditions: seq<string>, i: int) {
    0 <= i < |conditions| && t.task_description == ConditionPrefix + conditions[i]
  }

  /** Task `t` is the condition task of some condition of the list. */
  ghost predicate IsSomeConditionTask(t: Task, conditions: seq<string>) {
    exists i :: IsConditionTaskOf(t, conditions, i)
  }

  /** `t1` and `t2` are condition tasks of an earlier and a later condition of the list. */
  ghost predicate InOrder(t1: Task, t2: Task, conditions: seq<string>) {
    exists i1, i2 :: i1 < i2 && IsConditionTaskOf(t1, conditions, i1) && IsConditionTaskOf(t2, conditions, i2)
  }

  /** The tasks from position `from` on are condition tasks in the order of the list. */
  ghost predicate InListOrder(ts: seq<Task>, from: int, conditions: seq<string>) {
    forall k1, k2 :: 0 <= from <= k1 < k2 < |ts| ==> InOrder(ts[k1], ts[k2], conditions)
  }

  /** The inductive step of list order: an optional task for the first
      condition, followed by tasks in the order of the remaining conditions. */
  lemma InListOrderStep(from: int, conditions: seq<string>, step: seq<Task>, result: seq<Task>)
    requires |conditions| > 0 && 0 <= from <= |step| <= from + 1
    requires |step| == from + 1 ==> IsConditionTaskOf(step[from], conditions, 0)
    requires |step| <= |result| && result[..|step|] == step
    requires forall k :: |step| <= k < |result| ==> IsSomeConditionTask(result[k], conditions[1..])
    requires InListOrder(result, |step|, conditions[1..])
    ensures InListOrder(result, from, conditions)
  {
    var rest := conditions[1..];
    forall k1, k2 | 0 <= from <= k1 < k2 < |result|
      ensures InOrder(result[k1], result[k2], conditions)
    {
      if k1 < |step| {
        assert result[..|step|][k1] == result[k1];
        assert IsConditionTaskOf(result[k1], conditions, 0);
        assert IsSomeConditionTask(result[k2], rest);
        var i2 :| IsConditionTaskOf(result[k2], rest, i2);
        assert IsConditionTaskOf(result[k2], conditions, i2 + 1);
      } else {
        assert InOrder(result[k1], result[k2], rest);
        var i1, i2 :| i1 < i2 && IsConditionTaskOf(result[k1], rest, i1) && IsConditionTaskOf(result[k2], rest, i2);
        assert IsConditionTaskOf(result[k1], conditions, i1 + 1);
        assert IsConditionTaskOf(result[k2], conditions, i2 + 1);
      }
    }
  }

  /** Rule A appends its tasks in the order of the condition list. */
  lemma {:induction false} ConditionTasksInListOrder(tasks: seq<Task>, appId: string, conditions: seq<string>, ids: nat -> string, next: nat)
    ensures InListOrder(AddConditionTasks(tasks, appId, conditions, ids, next).tasks, |tasks|, conditions)
    decreases |conditions|
  {
    if |conditions| > 0 {
      var c := conditions[0];
      var rest := conditions[1..];
      var step := if Mentioned(tasks, appId, c) then Generated(tasks, next)
                  else Generated(tasks + [ConditionTask(ids(next), appId, c)], next + 1);
      var g := AddConditionTasks(step.tasks, appId, rest, ids, step.next);
      assert AddConditionTasks(tasks, appId, conditions, ids, next) == g;
      ConditionTasksInListOrder(step.tasks, appId, rest, ids, step.next);
      forall k | |step.tasks| <= k < |g.tasks|
        ensures IsSomeConditionTask(g.tasks[k], rest)
      {
        var d :| d in rest && g.tasks[k].task_description == ConditionPrefix + d && !Mentioned(step.tasks, appId, d);
        var i :| 0 <= i < |rest| && rest[i] == d;
        assert IsConditionTaskOf(g.tasks[k], rest, i);
      }
      InListOrderStep(|tasks|, conditions, step.tasks, g.tasks);
    }
  }

  /** Rule A adds nothing when every condition is already mentioned. */
  lemma {:induction false} ConditionsAlreadyCovered(tasks: seq<Task>, appId: string, conditions: seq<string>, ids: nat -> string, next: nat)
    requires forall c :: c in conditions ==> Mentioned(tasks, appId, c)
    ensures AddConditionTasks(tasks, appId, conditions, ids, next) == Generated(tasks, next)
    decreases |conditions|
  {
    if |conditions| > 0 {
      assert conditions[0] in conditions;
      forall c | c in conditions[1..]
        ensures Mentioned(tasks, appId, c)
      {
        assert c in conditions;
      }
      ConditionsAlreadyCovered(tasks, appId, conditions[1..], ids, next);
    }
  }

  /** Rule B leaves a deposit task behind whenever a deadline was parsed, and
      never touches the list when one is already there: a changed deadline is
      not carried into the existing task. */
  lemma DepositRule(tasks: seq<Task>, appId: string, amount: Option<string>, deadline: Option<string>, ids: nat -> string, next: nat)
    ensures Truthy(deadline) ==> Mentioned(AddDepositTask(tasks, appId, amount, deadline, ids, next).tasks, appId, DepositMarker)
    ensures Mentioned(tasks, appId, DepositMarker) ==> AddDepositTask(tasks, appId, amount, deadline, ids, next) == Generated(tasks, next)
  {
    var g := AddDepositTask(tasks, appId, amount, deadline, ids, next);
    if Truthy(deadline) && !Mentioned(tasks, appId, DepositMarker) {
      var t := DepositTask(ids(next), appId, amount, deadline);
      ContainsPrefix(DepositMarker, " (" + OrElse(amount, AmountPending) + ")");
      assert t.task_description == DepositMarker + (" (" + OrElse(amount, AmountPending) + ")");
      assert g.tasks[|tasks|] == t;
    }
  }

  /** What the two rules leave behind: every condition of a firing Rule A and
      the deposit marker of a firing Rule B are mentioned. */
  lemma GeneratedTasksCover(tasks: seq<Task>, appId: string, p: ParsedOffer, ids: nat -> string, next: nat)
    ensures ConditionRuleFires(p) ==>
      forall c :: c in p.conditions.value ==> Mentioned(GenerateTasks(tasks, appId, p, ids, next).tasks, appId, c)
    ensures Truthy(p.depositDeadline) ==> Mentioned(GenerateTasks(tasks, appId, p, ids, next).tasks, appId, DepositMarker)
  {
    var afterA := if ConditionRuleFires(p) then AddConditionTasks(tasks, appId, p.conditions.value, ids, next)
                  else Generated(tasks, next);
    var g := GenerateTasks(tasks, appId, p, ids, next);
    assert g == AddDepositTask(afterA.tasks, appId, p.depositAmount, p.depositDeadline, ids, afterA.next);
    DepositRule(afterA.tasks, appId, p.depositAmount, p.depositDeadline, ids, afterA.next);
    if ConditionRuleFires(p) {
      ConditionsCovered(tasks, appId, p.conditions.value, ids, next);
      forall c | c in p.conditions.value
        ensures Mentioned(g.tasks, appId, c)
      {
        MentionedGrows(afterA.tasks, g.tasks, appId, c);
      }
    }
  }

  /** Running both rules again on their own output adds nothing and takes no identifier. */
  lemma GenerateTasksIdempotent(tasks: seq<Task>, appId: string, p: ParsedOffer, ids: nat -> string, next: nat, ids': nat -> string, next': nat)
    ensures var g := GenerateTasks(tasks, appId, p, ids, next);
      GenerateTasks(g.tasks, appId, p, ids', next') == Generated(g.tasks, next')
  {
    var g := GenerateTasks(tasks, appId, p, ids, next);
    GeneratedTasksCover(tasks, appId, p, ids, next);
    if ConditionRuleFires(p) {
      ConditionsAlreadyCovered(g.tasks, appId, p.conditions.value, ids', next');
    }
    DepositRule(g.tasks, appId, p.depositAmount, p.depositDeadline, ids', next');
  }

  /** Position `k` holds the first task with identifier `taskId`. */
  ghost predicate FirstWithId(tasks: seq<Task>, taskId: string, k: int) {
    0 <= k < |tasks| && tasks[k].task_id == taskId && forall j :: 0 <= j < k ==> tasks[j].task_id != taskId
  }

  /** `updateTaskStatus`: the first task with the identifier gets the new status. */
  function UpdateTaskStatus(tasks: seq<Task>, taskId: string, status: TaskStatus): (r: seq<Task>)
    ensures |r| == |tasks|
    ensures forall i :: 0 <= i < |tasks| ==> r[i] == tasks[i] || (tasks[i].task_id == taskId && r[i] == tasks[i].(status := status))
    ensures (forall i :: 0 <= i < |tasks| ==> tasks[i].task_id != taskId) ==> r == tasks
    ensures forall k :: FirstWithId(tasks, taskId, k) ==> r == tasks[k := tasks[k].(status := status)]
  {
    match FirstIndex(tasks, (t: Task) => t.task_id == taskId)
    case None => tasks
    case Some(k) => tasks[k := tasks[k].(status := status)]
  }

  /** Setting a status twice is setting the second one: updates of one task never stack. */
  lemma UpdateTaskStatusLastWins(tasks: seq<Task>, taskId: string, first: TaskStatus, second: TaskStatus)
    ensures UpdateTaskStatus(UpdateTaskStatus(tasks, taskId, first), taskId, second) == UpdateTaskStatus(tasks, taskId, second)
  {
    var once := UpdateTaskStatus(tasks, taskId, first);
    if k :| 0 <= k < |tasks| && tasks[k].task_id == taskId {
      var f := FirstIndex(tasks, (t: Task) => t.task_id == taskId);
      var m := f.value;
      assert once == tasks[m := tasks[m].(status := first)];
      assert forall j :: 0 <= j < m ==> once[j].task_id != taskId;
    }
  }
}

=== FILE: text.dfy ===
/** The two string operations the reconciliation relies on: case folding for
    the matching keys and `includes` for the classifiers and the task guards. */
module Text {

  /** ASCII case folding of one character; every other character is unchanged. */
  function LowerChar(c: char): char {
    if 'A' <= c <= 'Z' then (c as int + 32) as char else c
  }

  /** `s.toLowerCase()`, restricted to ASCII case folding. */
  function Lower(s: string): (r: string)
    ensures |r| == |s|
    ensures forall i :: 0 <= i < |s| ==> r[i] == LowerChar(s[i])
  {
    seq(|s|, i requires 0 <= i < |s| => LowerChar(s[i]))
  }

  /** `s.includes(sub)`, scanning `s` from the front. */
  function Contains(s: string, sub: string): bool
    decreases |s|
  {
    sub <= s || (|s| > 0 && Contains(s[1..], sub))
  }

  /** `sub` occupies the block of `s` that starts at position `i`. */
  ghost predicate OccursAt(s: string, sub: string, i: int) {
    0 <= i && i + |sub| <= |s| && s[i..i + |sub|] == sub
  }

  /** An occurrence of `sub` at position `i` is found by the scan. */
  lemma {:induction false} OccursAtIsContained(s: string, sub: string, i: int)
    requires OccursAt(s, sub, i)
    ensures Contains(s, sub)
    decreases i
  {
    if i == 0 {
      assert sub <= s;
    } else {
      assert s[1..][i - 1..i - 1 + |sub|] == s[i..i + |sub|];
      OccursAtIsContained(s[1..], sub, i - 1);
    }
  }

  /** Whatever the scan finds occurs at some position. */
  lemma {:induction false} ContainedOccursSomewhere(s: string, sub: string)
    requires Contains(s, sub)
    ensures exists i :: OccursAt(s, sub, i)
    decreases |s|
  {
    if sub <= s {
      assert OccursAt(s, sub, 0);
    } else {
      ContainedOccursSomewhere(s[1..], sub);
      var i :| OccursAt(s[1..], sub, i);
      assert s[i + 1..i + 1 + |sub|] == s[1..][i..i + |sub|];
      assert OccursAt(s, sub, i + 1);
    }
  }

  /** The scan finds `sub` exactly when `sub` occurs somewhere in `s`. */
  lemma ContainsIffOccurs(s: string, sub: string)
    ensures Contains(s, sub) <==> exists i :: OccursAt(s, sub, i)
  {
    if Contains(s, sub) {
      ContainedOccursSomewhere(s, sub);
    }
    if i :| OccursAt(s, sub, i) {
      OccursAtIsContained(s, sub, i);
    }
  }

  /** A string contains every string it ends with. */
  lemma {:induction false} ContainsSuffix(p: string, sub: string)
    ensures Contains(p + sub, sub)
    decreases |p|
  {
    if |p| == 0 {
      assert p + sub == sub;
    } else {
      ContainsSuffix(p[1..], sub);
      assert (p + sub)[1..] == p[1..] + sub;
    }
  }

  /** A string contains every string it starts with. */
  lemma ContainsPrefix(sub: string, q: string)
    ensures Contains(sub + q, sub)
  {
    assert sub <= sub + q;
  }

  /** A string in which the first character of `sub` never appears does not contain `sub`. */
  lemma NotContainsWithoutFirstChar(s: string, sub: string)
    requires |sub| > 0
    requires forall i :: 0 <= i < |s| ==> s[i] != sub[0]
    ensures !Contains(s, sub)
  {
    forall i | 0 <= i && i + |sub| <= |s|
      ensures !OccursAt(s, sub, i)
    {
      assert s[i..i + |sub|][0] != sub[0];
    }
    ContainsIffOccurs(s, sub);
  }

  /** No string contains a longer one. */
  lemma NotContainsLonger(s: string, sub: string)
    requires |s| < |sub|
    ensures !Contains(s, sub)
  {
    ContainsIffOccurs(s, sub);
  }
}
